=== FILE: README.md ===
# EEPROM random read over the MSP430 USCI_B0 I2C master

A Dafny model of the bus-transaction part of `Part1.c`. It reads `n` bytes from an AT24C16 serial EEPROM at 7-bit address 0x50. First it writes the one-byte word address. Then it issues a repeated START, reads, NACKs the last byte and sends STOP. The six phase primitives and `eeprom_read_n` drive the USCI_B0 controller through its registers and busy-wait on its status bits. The model abstracts that controller into an immutable record:

- `Registers`: the controller state. UCB0CTL1 is the set of its named bits that are 1, and the USCI_B0 flags of IFG2 are two booleans. The record also holds UCB0TXBUF, UCB0RXBUF, the slave address, the bytes the addressed target will send, and a trace of register events. Every C statement that touches the controller is one function that updates the record and appends one event. A busy wait is one event whose post-state has the awaited value. The model assumes the controller eventually produces that value and records only what the code then observes. When RXIFG is not yet set, the wait delivers the target's next byte into UCB0RXBUF. Reading UCB0RXBUF clears RXIFG, and writing UCB0TXBUF clears TXIFG.
- `Phases`: the phase alphabet, one constructor per primitive call, and the block of register events each call performs. `Flatten` turns phases into a register trace. `Parse` recovers the phases from a trace. The two are proved inverse. `ReadPhases` is the sequence of calls `eeprom_read_n` makes.
- `Driver`: the primitives as functions and `eeprom_read_n` as a method whose loop stores into the caller's buffer. The buffer carries a log of the indices written, in order, and `Store` writes a cell and logs its index in one step.
- `ReadBlock`: properties of the phase sequence of a read. These are the call counts, the `n == 1` boundary, a shape that depends only on `n`, and the absence of any wait for the first START.
- `Wire`: the meaning of the register trace on the bus, as START, repeated START, data bytes with their ACK/NACK, and STOP. It is checked against the rules of the I2C-bus specification (NXP UM10204): START and STOP in section 3.1.4, the master-receiver's NACK on the last byte in section 3.1.6, and the combined format (one target, repeated START) in section 3.1.10. A received byte is NACKed only when STOP was requested before the wait that receives it.

`i2c_init` becomes the precondition `Idle`. It requires the controller out of reset, no START or STOP pending, no unread byte, and slave address 0x50. Every completed read restores `Idle` and leaves UCB0CTL1 as it found it except for UCTR, which it leaves clear. So the clock-source bits `i2c_init` sets in UCB0CTL1 (UCSSEL, Part1.c:13) are still there for the next read.

The start phase does not do what its name and its comment at Part1.c:23 promise. The model follows the code. `i2c_start_write_then_wait_addr_ack` waits for UCTXSTT to clear *before* it raises START, and it returns with START still pending (Part1.c:24-25). It does not block until the address phase is acknowledged. `ReadBlock.NoWaitForFirstStart` states that UCTXSTT is not polled again until after the repeated START is raised.

## Model

| member | source | states |
|---|---|---|
| Driver.StartWriteThenWaitAddrAck | Part1.c:22-27 | returns 0; polls UCTXSTT clear first, then sets UCTR and UCTXSTT together, and returns with START still pending; no other UCB0CTL1 bit, flag, UCB0TXBUF or receive-side state changes |
| Driver.SendByte | Part1.c:29-35 | returns 0; writes UCB0TXBUF only after one TXIFG wait and returns only after a second; afterwards TXBUF holds the byte and TXIFG is set; UCB0CTL1 and the receive side are untouched |
| Driver.RepeatedStartReadThenWaitAddrAck | Part1.c:37-43 | returns 0; clears UCTR, then sets UCTXSTT, then waits for it to clear; on return it is in receive mode with no START pending; every other UCB0CTL1 bit is kept (read-modify-write) |
| Driver.RxNext | Part1.c:52-55 | returns the unread byte if RXIFG was already set, else the target's next byte; RXIFG is clear afterwards; UCB0CTL1, including UCTXSTP, is untouched |
| Driver.RxLastWithStop | Part1.c:57-62 | sets UCTXSTP before it waits for RXIFG and reads UCB0RXBUF; returns the same byte as RxNext would; UCTXSTP is set on return and all other UCB0CTL1 bits are kept |
| Driver.RxOneWithStop | Part1.c:45-50 | the same statements and the same guarantees as RxLastWithStop |
| Driver.Address | Part1.c:65-69 | from Idle, the three addressing phases run in order; each result is 0, so the -1/-2/-3 returns are never taken; the controller is left Idle and in receive mode: UCB0CTL1 is what it was with UCTR cleared |
| Driver.ReadIntermediate | Part1.c:71-75 | the loop stores the target's next n-1 bytes at indices 0..n-2, in arrival order and in index order; it adds exactly n-1 intermediate-read blocks to the trace, leaves indices >= n-1 untouched and does not change UCB0CTL1 |
| Driver.EepromReadN | Part1.c:64-81 | for 1 <= n <= buffer size from Idle: returns 0; buf[0..n) holds the n bytes the target sent, in order; no index >= n is written, and the stores go to indices 0..n-1 in that order; the trace is exactly start-write, send(word address), repeated-start-read, n-1 intermediate reads, the NACK+STOP read, then the UCTXSTP-clear wait, which is the last event; the controller is Idle again, n more bytes of the target's stream have arrived and the stream itself is unchanged, so a following read continues it; UCB0CTL1 is what it was with UCTR cleared; on the bus that trace is exactly the random-read frame, to slave address 0x50, of the bytes stored |
| Driver.FrameOfRead | Part1.c:64-78 | the register trace of a read from Idle, seen on the bus, is the random-read frame to slave address 0x50 of exactly the bytes the read stored, and the bus ends released |
| Phases.ParseFlatten | Part1.c:22-62 | the register trace of any sequence of primitive calls splits back into exactly those calls |
| Phases.FlattenParse | Part1.c:22-62 | any trace the splitter accepts is exactly the concatenation of the register blocks of the calls it reports |
| ReadBlock.ReadTraceParses | Part1.c:64-78 | the register trace of a read splits into exactly its phase sequence |
| ReadBlock.ReadPhaseCounts | Part1.c:64-78 | a read of n bytes makes exactly one start-write, one send, one repeated-start-read, n-1 intermediate reads, one NACK+STOP read and one STOP-confirmation wait |
| ReadBlock.SingleByteRead | Part1.c:72-77 | for n == 1 there is no intermediate read: the only byte comes through the NACK+STOP path |
| ReadBlock.ShapeDependsOnlyOnLength | Part1.c:64-78 | the kinds of calls a read makes depend only on n, not on the word address or the data, so repeated reads of the same length make the same calls |
| ReadBlock.NoWaitForFirstStart | Part1.c:22-43 | the eight register operations of the addressing phases: UCTXSTT is polled clear (event 0) before the first START is raised (event 1), never between that START and the repeated START (event 6), and again right after the repeated START (event 7) |
| Wire.RunStartWrite | Part1.c:22-27 | on an idle bus the start-write phase puts START + slave address + W on the bus and leaves it held in transmit mode |
| Wire.RunSendByte | Part1.c:29-35 | the send phase puts exactly the one data byte on the bus |
| Wire.RunRepeatedStartRead | Part1.c:37-43 | on a held bus in transmit mode the phase puts a repeated START + slave address + R on the bus and leaves it receiving |
| Wire.RunRxNext | Part1.c:52-55 | an intermediate read receives one byte and ACKs it |
| Wire.RunFinish | Part1.c:57-62 | the last-byte read NACKs its byte; the following UCTXSTP wait puts STOP on the bus and releases it |
| Wire.LateStopAcks | Part1.c:57-62 | the order of the last-byte read matters: requesting STOP only after the RXIFG wait ACKs the received byte before STOP, a frame the bus rules reject |
| Wire.ReadOnTheWire | Part1.c:64-78 | from an idle bus, with any prior UCTR, a read puts exactly this frame on the bus: START+W, word address, repeated START+R, n-1 ACKed bytes, the last byte NACKed, STOP; the bus ends released |
| Wire.RandomReadConformant | Part1.c:64-78 | that frame keeps the bus rules: START first, STOP last, neither in between; data goes out only in a write and comes in only in a read; every received byte is ACKed except the one before STOP, which is NACKed; every START addresses the same target |

## Left out

- `i2c_init` (Part1.c:6-20) is not modelled. It writes constant values to pin-mux, reset, clock and divider registers whose definitions come from `msp430.h`, which is not part of this model. Its outcome is the precondition `Registers.Idle`.
- `main`, the watchdog disable and the demonstration functions `step1_start_addr` … `step5_read_second_byte` (Part1.c:83-129) are bring-up glue and are not modelled. Their calls of `eeprom_read_n` pass n = 2 and n = 3 with a 3-byte buffer, so they meet the precondition `1 <= n <= |buf|`.
- How the controller produces the polled values is not modelled: the self-clearing of UCTXSTT and UCTXSTP, when TXIFG and RXIFG rise, and bus timing. Each wait is an event assumed to complete, and only the awaited flag or bit changes, except that an RXIFG wait that finds the flag clear also delivers the target's next byte into UCB0RXBUF. As a result, the model leaves UCTXSTT set between the first START and the repeated START, although the hardware clears it during the address phase.
- Termination of the busy waits is not modelled. The hardware can keep them spinning forever.
- NACK detection, arbitration loss, timeouts and EEPROM writes are not modelled. The code has none of them.
- UCB0CTL0 is not modelled. `i2c_init` sets the master, I2C-mode and synchronous bits there (Part1.c:12), and the read path never writes it, so nothing the model states depends on it.
- Concrete bit positions of UCB0CTL1 and IFG2 are not modelled. The bits are named, not numbered.
- The EEPROM memory itself is not modelled, including how its address counter advances and rolls over. The bytes the target sends are an abstract stream (`Usci.sda`), and the read is proved to store them in order.
- `n == 0` is excluded by a precondition. The C code would evaluate `buf[n - 1]`, which is `buf[-1]`, and write before the buffer.

=== FILE: driver.dfy ===
/** The EEPROM random-read transaction of Part1.c: the phase primitives and
    eeprom_read_n, as functions over the register record of `Registers`.

    Each primitive's contract gives what the caller can rely on afterwards
    (which UCB0CTL1 bits hold, which flags, which byte came back) and the
    block of register events it appends, named by its `Phases.Phase`. */
module Driver {
  import opened Registers
  import Phases
  import Wire

  /** The controller after a phase primitive, and the primitive's return
      code. */
  datatype Outcome = Outcome(state: Usci, rc: int)

  /** UCB0CTL1 bits outside `touched` read the same in `s` and `r`. */
  ghost predicate OtherCtl1BitsKept(s: Usci, r: Usci, touched: set<Ctl1Bit>)
  {
    forall bit :: bit !in touched ==> (bit in r.ctl1 <==> bit in s.ctl1)
  }

  /** Everything on the receive side and the bus side is as it was. */
  ghost predicate ReceiveSideKept(s: Usci, r: Usci)
  {
    && r.rxifg == s.rxifg
    && r.rxbuf == s.rxbuf
    && r.rxCount == s.rxCount
    && r.i2csa == s.i2csa
    && r.sda == s.sda
  }

  /** i2c_start_write_then_wait_addr_ack: waits for a pending START to clear,
      then selects transmit mode and raises START. It does not wait for the
      new START to complete: it returns with UCTXSTT still set. */
  function StartWriteThenWaitAddrAck(s: Usci): (r: Outcome)
    ensures r.rc == 0
    ensures UCTR in r.state.ctl1 && UCTXSTT in r.state.ctl1
    ensures OtherCtl1BitsKept(s, r.state, {UCTR, UCTXSTT})
    ensures ReceiveSideKept(s, r.state) && r.state.txifg == s.txifg && r.state.txbuf == s.txbuf
    ensures r.state.trace == s.trace + Phases.Events(Phases.StartWrite)
  {
    var s1 := PollCtl1Clear(s, UCTXSTT);
    Outcome(OrCtl1(s1, {UCTR, UCTXSTT}), 0)
  }

  /** i2c_send_byte: the byte goes into UCB0TXBUF only once TXIFG has been
      seen set, and the call returns only after TXIFG is seen set again. */
  function SendByte(s: Usci, b: byte): (r: Outcome)
    ensures r.rc == 0
    ensures r.state.txbuf == b && r.state.txifg
    ensures r.state.ctl1 == s.ctl1
    ensures ReceiveSideKept(s, r.state)
    ensures r.state.trace == s.trace + Phases.Events(Phases.SendByte(b))
  {
    var s1 := PollIfgSet(s, UCB0TXIFG);
    var s2 := StoreTxBuf(s1, b);
    Outcome(PollIfgSet(s2, UCB0TXIFG), 0)
  }

  /** i2c_repeated_start_read_then_wait_addr_ack: clears UCTR, raises a
      repeated START and returns once UCTXSTT reads clear. */
  function RepeatedStartReadThenWaitAddrAck(s: Usci): (r: Outcome)
    ensures r.rc == 0
    ensures UCTR !in r.state.ctl1 && UCTXSTT !in r.state.ctl1
    ensures OtherCtl1BitsKept(s, r.state, {UCTR, UCTXSTT})
    ensures ReceiveSideKept(s, r.state) && r.state.txifg == s.txifg
    ensures r.state.trace == s.trace + Phases.Events(Phases.RepeatedStartRead)
  {
    var s1 := AndNotCtl1(s, {UCTR});
    var s2 := OrCtl1(s1, {UCTXSTT});
    Outcome(PollCtl1Clear(s2, UCTXSTT), 0)
  }

  /** The byte the next RXIFG wait yields: the unread one if RXIFG is
      already set, otherwise the target's next byte. */
  function NextByte(s: Usci): byte
  {
    if s.rxifg then s.rxbuf else s.sda(s.rxCount)
  }

  /** How many bytes have arrived once the next RXIFG wait returns. */
  function CountAfterWait(s: Usci): nat
  {
    if s.rxifg then s.rxCount else s.rxCount + 1
  }

  /** i2c_rx_next: waits for RXIFG and returns UCB0RXBUF; UCB0CTL1 is not
      touched, so the hardware acknowledges the byte. */
  function RxNext(s: Usci): (r: Received)
    ensures r.value == NextByte(s)
    ensures !r.state.rxifg && r.state.rxCount == CountAfterWait(s)
    ensures r.state.ctl1 == s.ctl1
    ensures r.state.txifg == s.txifg && r.state.i2csa == s.i2csa && r.state.sda == s.sda
    ensures r.state.trace == s.trace + Phases.Events(Phases.RxNext(r.value))
  {
    LoadRxBuf(PollIfgSet(s, UCB0RXIFG))
  }

  /** i2c_rx_last_with_stop: requests STOP (so the hardware NACKs the byte
      in flight) before waiting for RXIFG and reading UCB0RXBUF. */
  function RxLastWithStop(s: Usci): (r: Received)
    ensures r.value == NextByte(s)
    ensures !r.state.rxifg && r.state.rxCount == CountAfterWait(s)
    ensures UCTXSTP in r.state.ctl1
    ensures OtherCtl1BitsKept(s, r.state, {UCTXSTP})
    ensures r.state.txifg == s.txifg && r.state.i2csa == s.i2csa && r.state.sda == s.sda
    ensures r.state.trace == s.trace + Phases.Events(Phases.RxLastWithStop(r.value))
  {
    var s1 := OrCtl1(s, {UCTXSTP});
    LoadRxBuf(PollIfgSet(s1, UCB0RXIFG))
  }

  /** i2c_rx_one_with_stop: the same statements as i2c_rx_last_with_stop,
      meant for single-byte reads; eeprom_read_n does not call it. */
  function RxOneWithStop(s: Usci): (r: Received)
    ensures r.value == NextByte(s)
    ensures !r.state.rxifg && r.state.rxCount == CountAfterWait(s)
    ensures UCTXSTP in r.state.ctl1
    ensures OtherCtl1BitsKept(s, r.state, {UCTXSTP})
    ensures r.state.txifg == s.txifg && r.state.i2csa == s.i2csa && r.state.sda == s.sda
    ensures r.state.trace == s.trace + Phases.Events(Phases.RxLastWithStop(r.value))
  {
    var s1 := OrCtl1(s, {UCTXSTP});
    LoadRxBuf(PollIfgSet(s1, UCB0RXIFG))
  }

  /** The next `n` bytes the target sends. */
  function Burst(s: Usci, n: nat): (d: seq<byte>)
    ensures |d| == n
  {
    seq<byte>(n, i requires 0 <= i < n => s.sda(s.rxCount + i))
  }

  lemma BurstStep(s: Usci, i: nat)
    ensures Burst(s, i + 1) == Burst(s, i) + [s.sda(s.rxCount + i)]
  {
  }

  /** One more intermediate byte extends the trace by one RxNext block. */
  lemma ExtendTrace(wordAddr: byte, d: seq<byte>, v: byte)
    ensures Phases.Flatten(Phases.Addressing(wordAddr) + Phases.RxNexts(d)) + Phases.Events(Phases.RxNext(v))
         == Phases.Flatten(Phases.Addressing(wordAddr) + Phases.RxNexts(d + [v]))
  {
    assert Phases.RxNexts(d + [v]) == Phases.RxNexts(d) + [Phases.RxNext(v)];
    assert Phases.Addressing(wordAddr) + Phases.RxNexts(d + [v])
        == (Phases.Addressing(wordAddr) + Phases.RxNexts(d)) + [Phases.RxNext(v)];
    Phases.FlattenAppend(Phases.Addressing(wordAddr) + Phases.RxNexts(d), [Phases.RxNext(v)]);
    Phases.FlattenOne(Phases.RxNext(v));
  }

  /** The last byte and the STOP wait complete the trace of ReadPhases. */
  lemma CloseTrace(wordAddr: byte, d: seq<byte>, last: byte)
    ensures Phases.Flatten(Phases.Addressing(wordAddr) + Phases.RxNexts(d))
            + Phases.Events(Phases.RxLastWithStop(last)) + Phases.Events(Phases.AwaitStop)
         == Phases.Flatten(Phases.ReadPhases(wordAddr, d + [last]))
  {
    var tail := [Phases.RxLastWithStop(last), Phases.AwaitStop];
    assert (d + [last])[..|d|] == d;
    assert Phases.ReadPhases(wordAddr, d + [last]) == (Phases.Addressing(wordAddr) + Phases.RxNexts(d)) + tail;
    Phases.FlattenAppend(Phases.Addressing(wordAddr) + Phases.RxNexts(d), tail);
    assert tail == [Phases.RxLastWithStop(last)] + [Phases.AwaitStop];
    Phases.FlattenAppend([Phases.RxLastWithStop(last)], [Phases.AwaitStop]);
    Phases.FlattenOne(Phases.RxLastWithStop(last));
    Phases.FlattenOne(Phases.AwaitStop);
  }

  /** A read's register trace, seen on the bus, is the random-read frame of
      the bytes the read stored. */
  lemma FrameOfRead(s: Usci, r: Usci, wordAddr: byte, cells: seq<byte>, n: byte)
    requires Idle(s) && 1 <= n <= |cells|
    requires cells[..n] == Burst(s, n)
    requires r.trace == s.trace + Phases.Flatten(Phases.ReadPhases(wordAddr, Burst(s, n)))
    ensures Wire.Run(r.trace[|s.trace|..], Wire.Bus(UCTR in s.ctl1, false, false, false), s.i2csa)
         == Wire.Effect(Wire.RandomRead(AT24C16, wordAddr, cells[..n]), Wire.Bus(false, false, false, false))
  {
    assert r.trace[|s.trace|..] == Phases.Flatten(Phases.ReadPhases(wordAddr, Burst(s, n)));
    Wire.ReadOnTheWire(wordAddr, Burst(s, n), UCTR in s.ctl1, s.i2csa);
  }

  /** The caller's buffer, with the indices written to it in the order of
      the writes. `Store` is the only way to write it, so the log cannot
      drift from the contents. */
  datatype Buffer = Buffer(cells: seq<byte>, stores: seq<int>)

  /** `buf[i] = v` */
  function Store(b: Buffer, i: int, v: byte): Buffer
    requires 0 <= i < |b.cells|
  {
    Buffer(b.cells[i := v], b.stores + [i])
  }

  /** The loop of eeprom_read_n: bytes 0 .. n-2 through i2c_rx_next, each
      stored at its own index. `s` is the state the transaction started in,
      `r0` the state after the repeated START. */
  method ReadIntermediate(s: Usci, r0: Usci, wordAddr: byte, buf: seq<byte>, n: byte)
    returns (r: Usci, out: Buffer)
    requires 1 <= n <= |buf|
    requires Idle(r0) && r0.rxCount == s.rxCount && r0.sda == s.sda
    requires r0.trace == s.trace + Phases.Flatten(Phases.Addressing(wordAddr))
    ensures |out.cells| == |buf|
    ensures out.cells[..n - 1] == Burst(s, n as int - 1)
    ensures out.cells[n - 1..] == buf[n - 1..]
    ensures |out.stores| == n as int - 1 && forall k :: 0 <= k < |out.stores| ==> out.stores[k] == k
    ensures r.trace == s.trace + Phases.Flatten(Phases.Addressing(wordAddr) + Phases.RxNexts(Burst(s, n as int - 1)))
    ensures Idle(r) && r.rxCount == s.rxCount + n as int - 1 && r.sda == s.sda
    ensures r.ctl1 == r0.ctl1
  {
    r, out := r0, Buffer(buf, []);
    assert Phases.Addressing(wordAddr) + Phases.RxNexts(Burst(s, 0)) == Phases.Addressing(wordAddr);
    var i := 0;
    while i < n as int - 1
      invariant 0 <= i <= n as int - 1
      invariant |out.cells| == |buf|
      invariant out.cells[..i] == Burst(s, i)
      invariant out.cells[i..] == buf[i..]
      invariant |out.stores| == i && forall k :: 0 <= k < i ==> out.stores[k] == k
      invariant r.trace == s.trace + Phases.Flatten(Phases.Addressing(wordAddr) + Phases.RxNexts(Burst(s, i)))
      invariant Idle(r) && r.rxCount == s.rxCount + i && r.sda == s.sda
      invariant r.ctl1 == r0.ctl1
    {
      var rx := RxNext(r);
      BurstStep(s, i);
      ExtendTrace(wordAddr, Burst(s, i), rx.value);
      r := rx.state;
      out := Store(out, i, rx.value);
      i := i + 1;
    }
  }

  /** Phases 1 and 2 of eeprom_read_n: START + write, the word address,
      repeated START + read, each checked for a non-zero result. `ret` is
      what eeprom_read_n returns at that point, or 0 to carry on. */
  method Address(s: Usci, wordAddr: byte) returns (r: Usci, ret: int)
    requires Idle(s)
    ensures ret == 0
    ensures Idle(r) && r.rxCount == s.rxCount && r.sda == s.sda
    ensures r.ctl1 == s.ctl1 - {UCTR}
    ensures r.trace == s.trace + Phases.Flatten(Phases.Addressing(wordAddr))
  {
    var t := StartWriteThenWaitAddrAck(s);
    r := t.state;
    if t.rc != 0 { return r, -1; }
    t := SendByte(r, wordAddr);
    r := t.state;
    if t.rc != 0 { return r, -2; }
    t := RepeatedStartReadThenWaitAddrAck(r);
    r := t.state;
    if t.rc != 0 { return r, -3; }
    Phases.AddressingEvents(wordAddr);
    ret := 0;
  }

  /** eeprom_read_n. `out` is the caller's buffer afterwards, with the
      indices written in the order they were written. Besides the register
      trace, the contract gives what that trace puts on the bus. */
  method EepromReadN(s: Usci, wordAddr: byte, buf: seq<byte>, n: byte)
    returns (r: Usci, out: Buffer, ret: int)
    requires Idle(s)
    requires 1 <= n <= |buf|
    ensures ret == 0
    ensures |out.cells| == |buf|
    ensures out.cells[..n] == Burst(s, n)
    ensures out.cells[n..] == buf[n..]
    ensures |out.stores| == n as int && forall k :: 0 <= k < |out.stores| ==> out.stores[k] == k
    ensures r.trace == s.trace + Phases.Flatten(Phases.ReadPhases(wordAddr, Burst(s, n)))
    ensures r.trace[|r.trace| - 1] == AwaitCtl1Clear(UCTXSTP)
    ensures Idle(r) && r.rxCount == s.rxCount + n as int && r.sda == s.sda
    ensures r.ctl1 == s.ctl1 - {UCTR}
    ensures Wire.Run(r.trace[|s.trace|..], Wire.Bus(UCTR in s.ctl1, false, false, false), s.i2csa)
         == Wire.Effect(Wire.RandomRead(AT24C16, wordAddr, out.cells[..n]), Wire.Bus(false, false, false, false))
  {
    out := Buffer(buf, []);
    r, ret := Address(s, wordAddr);
    if ret != 0 { return; }

    r, out := ReadIntermediate(s, r, wordAddr, buf, n);

    var rx := RxLastWithStop(r);
    BurstStep(s, n as int - 1);
    CloseTrace(wordAddr, Burst(s, n as int - 1), rx.value);
    out := Store(out, n as int - 1, rx.value);
    r := PollCtl1Clear(rx.state, UCTXSTP);
    ret := 0;
    FrameOfRead(s, r, wordAddr, out.cells, n);
  }
}

=== FILE: phases.dfy ===
/** The phase alphabet of the driver: each phase primitive of Part1.c emits
    one fixed block of register events. `Flatten` turns a phase sequence into
    the register trace; `Parse` recovers the phases from a trace, and the two
    are proved inverse, so a register trace determines the phases that
    produced it. `ReadPhases` is the phase sequence of eeprom_read_n. */
module Phases {
  import opened Registers

  datatype Option<T> = None | Some(value: T)

  /** One call of a phase primitive, with the byte it moved. The last
      constructor is the STOP-confirmation wait of eeprom_read_n. */
  datatype Phase =
    | StartWrite                  // i2c_start_write_then_wait_addr_ack
    | SendByte(b: byte)           // i2c_send_byte
    | RepeatedStartRead           // i2c_repeated_start_read_then_wait_addr_ack
    | RxNext(b: byte)             // i2c_rx_next
    | RxLastWithStop(b: byte)     // i2c_rx_last_with_stop / i2c_rx_one_with_stop
    | AwaitStop                   // while (UCB0CTL1 & UCTXSTP) ;

  /** The register operations of one phase, in program order. */
  function Events(p: Phase): (es: seq<Event>)
    ensures |es| > 0
  {
    match p
    case StartWrite => [AwaitCtl1Clear(UCTXSTT), SetCtl1({UCTR, UCTXSTT})]
    case SendByte(b) => [AwaitIfgSet(UCB0TXIFG), WriteTxBuf(b), AwaitIfgSet(UCB0TXIFG)]
    case RepeatedStartRead => [ClearCtl1({UCTR}), SetCtl1({UCTXSTT}), AwaitCtl1Clear(UCTXSTT)]
    case RxNext(b) => [AwaitIfgSet(UCB0RXIFG), ReadRxBuf(b)]
    case RxLastWithStop(b) => [SetCtl1({UCTXSTP}), AwaitIfgSet(UCB0RXIFG), ReadRxBuf(b)]
    case AwaitStop => [AwaitCtl1Clear(UCTXSTP)]
  }

  function Flatten(ps: seq<Phase>): seq<Event>
  {
    if ps == [] then [] else Events(ps[0]) + Flatten(ps[1..])
  }

  /** The phase whose block starts `es`, if any. Every block is recognised by
      its first event; the byte of a data phase is read off its block. */
  function Leading(es: seq<Event>): Option<Phase>
  {
    if es == [] then None
    else
      var guess: Option<Phase> :=
        match es[0]
        case AwaitCtl1Clear(bit) =>
          if bit == UCTXSTT then Some(StartWrite)
          else if bit == UCTXSTP then Some(AwaitStop)
          else None
        case AwaitIfgSet(flag) =>
          if |es| < 2 || !(es[1].WriteTxBuf? || es[1].ReadRxBuf?) then None
          else if flag == UCB0TXIFG && es[1].WriteTxBuf? then Some(SendByte(es[1].b))
          else if flag == UCB0RXIFG && es[1].ReadRxBuf? then Some(RxNext(es[1].b))
          else None
        case ClearCtl1(_) => Some(RepeatedStartRead)
        case SetCtl1(_) =>
          if |es| >= 3 && es[2].ReadRxBuf? then Some(RxLastWithStop(es[2].b)) else None
        case _ => None;
      if guess.Some? && Events(guess.value) <= es then guess else None
  }

  /** Splits a register trace back into phases; None when it is not a
      concatenation of phase blocks. */
  function Parse(es: seq<Event>): Option<seq<Phase>>
    decreases |es|
  {
    if es == [] then Some([])
    else
      match Leading(es)
      case None => None
      case Some(p) =>
        match Parse(es[|Events(p)|..])
        case None => None
        case Some(rest) => Some([p] + rest)
  }

  lemma LeadingOfBlock(p: Phase, rest: seq<Event>)
    ensures Leading(Events(p) + rest) == Some(p)
  {
  }

  /** Parsing the trace of a phase sequence gives that phase sequence back. */
  lemma {:induction false} ParseFlatten(ps: seq<Phase>)
    ensures Parse(Flatten(ps)) == Some(ps)
  {
    if ps != [] {
      var es := Flatten(ps);
      LeadingOfBlock(ps[0], Flatten(ps[1..]));
      assert es[|Events(ps[0])|..] == Flatten(ps[1..]);
      ParseFlatten(ps[1..]);
      assert [ps[0]] + ps[1..] == ps;
    }
  }

  /** Conversely, whatever Parse accepts is exactly the trace of the phases
      it returns: no event is dropped or invented. */
  lemma {:induction false} FlattenParse(es: seq<Event>)
    ensures Parse(es).Some? ==> Flatten(Parse(es).value) == es
    decreases |es|
  {
    if es != [] && Parse(es).Some? {
      var p := Leading(es).value;
      var tail := es[|Events(p)|..];
      FlattenParse(tail);
      var ps := Parse(es).value;
      assert ps == [p] + Parse(tail).value;
      assert ps[1..] == Parse(tail).value;
      assert Events(p) + tail == es;
    }
  }

  lemma {:induction false} FlattenAppend(xs: seq<Phase>, ys: seq<Phase>)
    ensures Flatten(xs + ys) == Flatten(xs) + Flatten(ys)
  {
    if xs == [] {
      assert xs + ys == ys;
    } else {
      assert (xs + ys)[1..] == xs[1..] + ys;
      FlattenAppend(xs[1..], ys);
    }
  }

  lemma FlattenOne(p: Phase)
    ensures Flatten([p]) == Events(p)
  {
  }

  /** One intermediate-read phase per byte. */
  function RxNexts(d: seq<byte>): (ps: seq<Phase>)
    ensures |ps| == |d|
  {
    seq(|d|, i requires 0 <= i < |d| => RxNext(d[i]))
  }

  /** The phases before the first data byte. */
  function Addressing(wordAddr: byte): seq<Phase>
  {
    [StartWrite, SendByte(wordAddr), RepeatedStartRead]
  }

  /** The phases of a random read of the bytes `d`: write the word address,
      switch to reading, acknowledge all but the last byte, NACK the last
      one with STOP, wait for the STOP to go out. */
  function ReadPhases(wordAddr: byte, d: seq<byte>): seq<Phase>
    requires |d| >= 1
  {
    Addressing(wordAddr) + RxNexts(d[..|d| - 1])
    + [RxLastWithStop(d[|d| - 1]), AwaitStop]
  }

  lemma AddressingEvents(wordAddr: byte)
    ensures Flatten(Addressing(wordAddr))
         == Events(StartWrite) + Events(SendByte(wordAddr))
            + Events(RepeatedStartRead)
  {
    var a := Addressing(wordAddr);
    assert a[1..] == [SendByte(wordAddr), RepeatedStartRead];
    assert a[1..][1..] == [RepeatedStartRead];
    FlattenOne(RepeatedStartRead);
  }

  /** The kind of call a phase is: the phase with its data byte replaced by 0. */
  function Erase(p: Phase): Phase
  {
    match p
    case SendByte(_) => SendByte(0)
    case RxNext(_) => RxNext(0)
    case RxLastWithStop(_) => RxLastWithStop(0)
    case _ => p
  }

  /** The sequence of call kinds, data bytes dropped. */
  function Shape(ps: seq<Phase>): (ks: seq<Phase>)
    ensures |ks| == |ps|
  {
    seq(|ps|, i requires 0 <= i < |ps| => Erase(ps[i]))
  }

  /** How many phases of `ps` are calls of kind `k`. */
  function Count(ps: seq<Phase>, k: Phase): nat
  {
    if ps == [] then 0
    else (if Erase(ps[0]) == k then 1 else 0) + Count(ps[1..], k)
  }

  lemma {:induction false} CountAppend(xs: seq<Phase>, ys: seq<Phase>, k: Phase)
    ensures Count(xs + ys, k) == Count(xs, k) + Count(ys, k)
  {
    if xs == [] {
      assert xs + ys == ys;
    } else {
      assert (xs + ys)[1..] == xs[1..] + ys;
      CountAppend(xs[1..], ys, k);
    }
  }
}

=== FILE: readblock.dfy ===
/** Properties of the phase sequence eeprom_read_n performs
    (`Phases.ReadPhases`), which `Driver.EepromReadN` is proved to emit. */
module ReadBlock {
  import opened Registers
  import opened Phases

  lemma {:induction false} CountRxNexts(e: seq<byte>, k: Phase)
    ensures Count(RxNexts(e), k) == if k == RxNext(0) then |e| else 0
    decreases |e|
  {
    if e != [] {
      assert RxNexts(e)[0] == RxNext(e[0]);
      assert RxNexts(e)[1..] == RxNexts(e[1..]);
      CountRxNexts(e[1..], k);
    }
  }

  /** A read of n bytes makes one call each of start-write, send-byte,
      repeated-start-read and rx-last-with-stop, n - 1 calls of rx-next, and
      one STOP-confirmation wait. */
  lemma ReadPhaseCounts(wordAddr: byte, d: seq<byte>)
    requires |d| >= 1
    ensures Count(ReadPhases(wordAddr, d), StartWrite) == 1
    ensures Count(ReadPhases(wordAddr, d), SendByte(0)) == 1
    ensures Count(ReadPhases(wordAddr, d), RepeatedStartRead) == 1
    ensures Count(ReadPhases(wordAddr, d), RxNext(0)) == |d| - 1
    ensures Count(ReadPhases(wordAddr, d), RxLastWithStop(0)) == 1
    ensures Count(ReadPhases(wordAddr, d), AwaitStop) == 1
  {
    var mid := RxNexts(d[..|d| - 1]);
    var p0, p1, p2 := StartWrite, SendByte(wordAddr), RepeatedStartRead;
    var p3, p4 := RxLastWithStop(d[|d| - 1]), AwaitStop;
    assert ReadPhases(wordAddr, d) == [p0] + [p1] + [p2] + mid + [p3] + [p4];
    forall k: Phase
      ensures Count(ReadPhases(wordAddr, d), k)
           == CountOne(p0, k) + CountOne(p1, k) + CountOne(p2, k) + Count(mid, k)
              + CountOne(p3, k) + CountOne(p4, k)
    {
      CountAppend([p0], [p1], k);
      CountAppend([p0] + [p1], [p2], k);
      CountAppend([p0] + [p1] + [p2], mid, k);
      CountAppend([p0] + [p1] + [p2] + mid, [p3], k);
      CountAppend([p0] + [p1] + [p2] + mid + [p3], [p4], k);
      CountSingle(p0, k);
      CountSingle(p1, k);
      CountSingle(p2, k);
      CountSingle(p3, k);
      CountSingle(p4, k);
    }
    forall k: Phase
      ensures Count(mid, k) == if k == RxNext(0) then |d| - 1 else 0
    {
      CountRxNexts(d[..|d| - 1], k);
    }
  }

  function CountOne(p: Phase, k: Phase): nat
  {
    if Erase(p) == k then 1 else 0
  }

  lemma CountSingle(p: Phase, k: Phase)
    ensures Count([p], k) == CountOne(p, k)
  {
  }

  /** Boundary n == 1: no intermediate read; the only byte is taken by the
      NACK + STOP path. */
  lemma SingleByteRead(wordAddr: byte, b: byte)
    ensures ReadPhases(wordAddr, [b])
         == [StartWrite, SendByte(wordAddr), RepeatedStartRead,
             RxLastWithStop(b), AwaitStop]
    ensures Count(ReadPhases(wordAddr, [b]), RxNext(0)) == 0
  {
    assert RxNexts([b][..0]) == [];
    ReadPhaseCounts(wordAddr, [b]);
  }

  /** The kinds of calls a read makes depend only on how many bytes it reads:
      neither the word address nor the data change them, so two reads of the
      same length from an idle controller make the same calls. */
  lemma ShapeDependsOnlyOnLength(a1: byte, d1: seq<byte>, a2: byte, d2: seq<byte>)
    requires |d1| == |d2| >= 1
    ensures Shape(ReadPhases(a1, d1)) == Shape(ReadPhases(a2, d2))
  {
  }

  /** The register trace of a read splits back into exactly its phases. */
  lemma ReadTraceParses(wordAddr: byte, d: seq<byte>)
    requires |d| >= 1
    ensures Parse(Flatten(ReadPhases(wordAddr, d))) == Some(ReadPhases(wordAddr, d))
  {
    ParseFlatten(ReadPhases(wordAddr, d));
  }

  /** Unlike its name, i2c_start_write_then_wait_addr_ack does not wait for
      the START it raises: its only UCTXSTT wait comes before. Between that
      START and the repeated START the code never polls UCTXSTT, so it relies
      on the TXIFG waits of i2c_send_byte for the address phase to be over. */
  lemma NoWaitForFirstStart(wordAddr: byte)
    ensures |Flatten(Addressing(wordAddr))| == 8
    ensures Flatten(Addressing(wordAddr))[0] == AwaitCtl1Clear(UCTXSTT)
    ensures Flatten(Addressing(wordAddr))[1] == SetCtl1({UCTR, UCTXSTT})
    ensures forall i :: 1 < i < 6 ==> Flatten(Addressing(wordAddr))[i] != AwaitCtl1Clear(UCTXSTT)
    ensures Flatten(Addressing(wordAddr))[6] == SetCtl1({UCTXSTT})
    ensures Flatten(Addressing(wordAddr))[7] == AwaitCtl1Clear(UCTXSTT)
  {
    AddressingEvents(wordAddr);
  }
}

=== FILE: registers.dfy ===
/** The register view of the MSP430 USCI_B0 controller in I2C master mode,
    as far as the EEPROM read path of Part1.c touches it.

    Bit values are abstract: UCB0CTL1 is the set of its named bits that are
    currently 1, IFG2 is reduced to the two USCI_B0 flags. Every C statement
    of the driver that touches the controller becomes one function below that
    updates the record and appends one `Event` to the trace, so the trace is
    the exact order of register operations the code performs.

    Hardware activity (the self-clearing of UCTXSTT/UCTXSTP, the flags being
    raised, bytes arriving) is not simulated in time. A busy-wait loop is one
    event whose post-state has the awaited bit value: the model assumes the
    controller eventually produces it and records only what the code then
    observes. */
module Registers {

  /** `uint8_t` */
  type byte = x: int | 0 <= x < 256

  /** 7-bit address of the AT24C16, block 0 (Part1.c:4). */
  const AT24C16: int := 0x50

  /** The bits of UCB0CTL1. */
  datatype Ctl1Bit = UCSSEL1 | UCSSEL0 | UCTR | UCTXNACK | UCTXSTP | UCTXSTT | UCSWRST

  /** The USCI_B0 flags of IFG2. */
  datatype IfgFlag = UCB0TXIFG | UCB0RXIFG

  /** One register operation performed by the driver. */
  datatype Event =
    | SetCtl1(bits: set<Ctl1Bit>)        // UCB0CTL1 |= bits
    | ClearCtl1(bits: set<Ctl1Bit>)      // UCB0CTL1 &= ~bits
    | AwaitCtl1Clear(bit: Ctl1Bit)       // while (UCB0CTL1 & bit) ;
    | AwaitIfgSet(flag: IfgFlag)         // while (!(IFG2 & flag)) ;
    | WriteTxBuf(b: byte)                // UCB0TXBUF = b
    | ReadRxBuf(b: byte)                 // value of UCB0RXBUF

  /** Controller state plus the bus side it talks to.
      `sda(k)` is the k-th data byte the addressed target shifts onto the bus
      in receive mode, `rxCount` how many of them have reached UCB0RXBUF. */
  datatype Usci = Usci(
    ctl1: set<Ctl1Bit>,
    txifg: bool,
    rxifg: bool,
    txbuf: byte,
    rxbuf: byte,
    i2csa: int,
    sda: nat -> byte,
    rxCount: nat,
    trace: seq<Event>)

  /** What i2c_init leaves behind (Part1.c:6-20) and what a completed
      transaction restores: out of reset, no START or STOP pending, no unread
      byte, target address 0x50. */
  predicate Idle(s: Usci)
  {
    && UCSWRST !in s.ctl1
    && UCTXSTT !in s.ctl1
    && UCTXSTP !in s.ctl1
    && !s.rxifg
    && s.i2csa == AT24C16
  }

  /** `UCB0CTL1 |= bits` */
  function OrCtl1(s: Usci, bits: set<Ctl1Bit>): Usci
  {
    s.(ctl1 := s.ctl1 + bits, trace := s.trace + [SetCtl1(bits)])
  }

  /** `UCB0CTL1 &= ~bits` */
  function AndNotCtl1(s: Usci, bits: set<Ctl1Bit>): Usci
  {
    s.(ctl1 := s.ctl1 - bits, trace := s.trace + [ClearCtl1(bits)])
  }

  /** `while (UCB0CTL1 & bit) ;` -- returns once the bit reads 0. */
  function PollCtl1Clear(s: Usci, bit: Ctl1Bit): Usci
  {
    s.(ctl1 := s.ctl1 - {bit}, trace := s.trace + [AwaitCtl1Clear(bit)])
  }

  /** `while (!(IFG2 & flag)) ;` -- returns once the flag reads 1. When RXIFG
      is not yet set, the target's next byte is what raises it. */
  function PollIfgSet(s: Usci, flag: IfgFlag): Usci
  {
    var s' := s.(trace := s.trace + [AwaitIfgSet(flag)]);
    match flag
    case UCB0TXIFG => s'.(txifg := true)
    case UCB0RXIFG =>
      if s.rxifg then s'
      else s'.(rxifg := true, rxbuf := s.sda(s.rxCount), rxCount := s.rxCount + 1)
  }

  /** `UCB0TXBUF = b` -- writing the buffer clears TXIFG. */
  function StoreTxBuf(s: Usci, b: byte): Usci
  {
    s.(txbuf := b, txifg := false, trace := s.trace + [WriteTxBuf(b)])
  }

  /** The controller after a read of UCB0RXBUF, and the byte read. */
  datatype Received = Received(state: Usci, value: byte)

  /** `return UCB0RXBUF;` -- reading the buffer clears RXIFG. */
  function LoadRxBuf(s: Usci): Received
  {
    Received(s.(rxifg := false, trace := s.trace + [ReadRxBuf(s.rxbuf)]), s.rxbuf)
  }
}

=== FILE: wire.dfy ===
/** What the register trace means on the two wires, following the USCI I2C
    master behaviour that Part1.c relies on (its comments at lines 25, 39,
    47 and 58-59): raising UCTXSTT sends a START, or a repeated START while
    the bus is held, with the slave address and the direction UCTR selects;
    a byte written to UCB0TXBUF goes out; a received byte is acknowledged
    unless UCTXSTP was requested before the RXIFG wait that receives it (the
    controller decides ACK or NACK while the byte is on the bus, before the
    code reads it), in which case it is NACKed and STOP follows, confirmed
    when UCTXSTP reads clear.

    The reference it is checked against is the I2C-bus specification
    (NXP UM10204): section 3.1.4 (START and STOP conditions) and section
    3.1.6 (a master-receiver signals the end of the transfer with a NACK on
    the last byte). */
module Wire {
  import opened Registers
  import opened Phases

  /** The R/W bit after the slave address. */
  datatype Direction = Write | Read

  datatype Condition =
    | Start(address: int, dir: Direction)
    | RepeatedStart(address: int, dir: Direction)
    | DataOut(b: byte)                 // master transmits, target acknowledges
    | DataIn(b: byte, acked: bool)     // target transmits, master ACKs or NACKs
    | Stop

  /** The part of the controller state that decides what the next event
      means: UCTR, whether the bus is held, whether STOP was requested, and
      whether the byte last received was NACKed (STOP was already requested
      when it came in). */
  datatype Bus = Bus(tr: bool, held: bool, stopRequested: bool, nacked: bool)

  /** What a stretch of register events puts on the bus, and the bus state
      it leaves. */
  datatype Effect = Effect(conds: seq<Condition>, after: Bus)

  function DirectionOf(tr: bool): Direction
  {
    if tr then Write else Read
  }

  /** The conditions one register event puts on the bus. */
  function Step(v: Bus, e: Event, sa: int): Effect
  {
    match e
    case SetCtl1(bits) =>
      var tr := v.tr || UCTR in bits;
      var dir := DirectionOf(tr);
      var conds := if UCTXSTT !in bits then []
                   else if v.held then [RepeatedStart(sa, dir)]
                   else [Start(sa, dir)];
      var held, stop := v.held || UCTXSTT in bits, v.stopRequested || UCTXSTP in bits;
      Effect(conds, v.(tr := tr, held := held, stopRequested := stop))
    case ClearCtl1(bits) => Effect([], v.(tr := v.tr && UCTR !in bits))
    case WriteTxBuf(b) => Effect([DataOut(b)], v)
    case ReadRxBuf(b) => Effect([DataIn(b, !v.nacked)], v)
    case AwaitCtl1Clear(bit) =>
      if bit == UCTXSTP && v.stopRequested then Effect([Stop], Bus(v.tr, false, false, false)) else Effect([], v)
    case AwaitIfgSet(flag) => Effect([], if flag == UCB0RXIFG then v.(nacked := v.stopRequested) else v)
  }

  /** The conditions a register trace puts on the bus, and the bus state
      after it. */
  function Run(es: seq<Event>, v: Bus, sa: int): Effect
    decreases |es|
  {
    if es == [] then Effect([], v)
    else
      var first := Step(v, es[0], sa);
      var rest := Run(es[1..], first.after, sa);
      Effect(first.conds + rest.conds, rest.after)
  }

  lemma {:induction false} RunAppend(xs: seq<Event>, ys: seq<Event>, v: Bus, sa: int)
    ensures Run(xs + ys, v, sa)
         == Effect(Run(xs, v, sa).conds + Run(ys, Run(xs, v, sa).after, sa).conds, Run(ys, Run(xs, v, sa).after, sa).after)
    decreases |xs|
  {
    if xs == [] {
      assert xs + ys == ys;
      assert [] + Run(ys, v, sa).conds == Run(ys, v, sa).conds;
    } else {
      assert (xs + ys)[0] == xs[0];
      assert (xs + ys)[1..] == xs[1..] + ys;
      var first := Step(v, xs[0], sa);
      RunAppend(xs[1..], ys, first.after, sa);
      var mid := Run(xs[1..], first.after, sa);
      var last := Run(ys, mid.after, sa);
      assert first.conds + (mid.conds + last.conds) == (first.conds + mid.conds) + last.conds;
    }
  }

  lemma RunOne(e: Event, v: Bus, sa: int)
    ensures Run([e], v, sa) == Step(v, e, sa)
  {
  }

  /** Two steps in a row. */
  lemma RunTwo(e0: Event, e1: Event, v: Bus, sa: int)
    ensures Run([e0, e1], v, sa)
         == Effect(Step(v, e0, sa).conds + Step(Step(v, e0, sa).after, e1, sa).conds, Step(Step(v, e0, sa).after, e1, sa).after)
  {
    assert [e0, e1] == [e0] + [e1];
    RunAppend([e0], [e1], v, sa);
    RunOne(e0, v, sa);
    RunOne(e1, Step(v, e0, sa).after, sa);
  }

  /** Bus state while the master receives: receive mode, bus held, no STOP
      requested yet. */
  const Receiving: Bus := Bus(false, true, false, false)

  /** Bus state after START + W: transmit mode, bus held. */
  const Transmitting: Bus := Bus(true, true, false, false)

  /** Conditions of the acknowledged bytes `d`. */
  function Acked(d: seq<byte>): (cs: seq<Condition>)
    ensures |cs| == |d|
  {
    seq(|d|, i requires 0 <= i < |d| => DataIn(d[i], true))
  }

  lemma RunStartWrite(tr0: bool, sa: int)
    ensures Run(Events(StartWrite), Bus(tr0, false, false, false), sa)
         == Effect([Start(sa, Write)], Transmitting)
  {
  }

  lemma RunSendByte(b: byte, sa: int)
    ensures Run(Events(SendByte(b)), Transmitting, sa) == Effect([DataOut(b)], Transmitting)
  {
    var e0, e1 := AwaitIfgSet(UCB0TXIFG), WriteTxBuf(b);
    assert Events(SendByte(b)) == [e0, e1] + [e0];
    RunAppend([e0, e1], [e0], Transmitting, sa);
    RunTwo(e0, e1, Transmitting, sa);
    RunOne(e0, Transmitting, sa);
    assert [] + [DataOut(b)] + [] == [DataOut(b)];
  }

  lemma RunRepeatedStartRead(sa: int)
    ensures Run(Events(RepeatedStartRead), Transmitting, sa)
         == Effect([RepeatedStart(sa, Read)], Receiving)
  {
  }

  lemma RunRxNext(b: byte, sa: int)
    ensures Run(Events(RxNext(b)), Receiving, sa) == Effect([DataIn(b, true)], Receiving)
  {
    RunTwo(AwaitIfgSet(UCB0RXIFG), ReadRxBuf(b), Receiving, sa);
    assert [] + [DataIn(b, true)] == [DataIn(b, true)];
  }

  /** Requesting STOP before the last byte makes it NACKed; the STOP wait
      then releases the bus. */
  lemma RunFinish(b: byte, sa: int)
    ensures Run(Flatten([RxLastWithStop(b), AwaitStop]), Receiving, sa)
         == Effect([DataIn(b, false), Stop], Bus(false, false, false, false))
  {
    var stopping := Bus(false, true, true, true);
    var e0, e1, e2, e3 := SetCtl1({UCTXSTP}), AwaitIfgSet(UCB0RXIFG), ReadRxBuf(b), AwaitCtl1Clear(UCTXSTP);
    FlattenAppend([RxLastWithStop(b)], [AwaitStop]);
    assert [RxLastWithStop(b), AwaitStop] == [RxLastWithStop(b)] + [AwaitStop];
    FlattenOne(RxLastWithStop(b));
    FlattenOne(AwaitStop);
    assert Flatten([RxLastWithStop(b), AwaitStop]) == [e0, e1] + [e2, e3];
    RunAppend([e0, e1], [e2, e3], Receiving, sa);
    RunTwo(e0, e1, Receiving, sa);
    RunTwo(e2, e3, stopping, sa);
    assert [] + [] + ([DataIn(b, false)] + [Stop]) == [DataIn(b, false), Stop];
  }

  /** The order of Part1.c:59-60 matters: a STOP requested only after the
      RXIFG wait comes too late for the byte already received, which is
      then ACKed before STOP, and the frame breaks the last-byte rule. */
  lemma LateStopAcks(b: byte, sa: int)
    ensures Run([AwaitIfgSet(UCB0RXIFG), SetCtl1({UCTXSTP}), ReadRxBuf(b), AwaitCtl1Clear(UCTXSTP)], Receiving, sa).conds
         == [DataIn(b, true), Stop]
    ensures !Conformant([Start(sa, Read), DataIn(b, true), Stop])
  {
    var e0, e1, e2, e3 := AwaitIfgSet(UCB0RXIFG), SetCtl1({UCTXSTP}), ReadRxBuf(b), AwaitCtl1Clear(UCTXSTP);
    assert [e0, e1, e2, e3] == [e0, e1] + [e2, e3];
    RunAppend([e0, e1], [e2, e3], Receiving, sa);
    RunTwo(e0, e1, Receiving, sa);
    RunTwo(e2, e3, Bus(false, true, true, false), sa);
    assert [] + [] + ([DataIn(b, true)] + [Stop]) == [DataIn(b, true), Stop];
    var cs := [Start(sa, Read), DataIn(b, true), Stop];
    assert cs[1].DataIn? && cs[1].acked && cs[2].Stop?;
  }

  /** START + address + W, the word address, repeated START + address + R. */
  lemma RunAddressing(wordAddr: byte, tr0: bool, sa: int)
    ensures Run(Flatten(Addressing(wordAddr)), Bus(tr0, false, false, false), sa)
         == Effect([Start(sa, Write), DataOut(wordAddr), RepeatedStart(sa, Read)], Receiving)
  {
    AddressingEvents(wordAddr);
    var v0 := Bus(tr0, false, false, false);
    var e1 := Events(StartWrite);
    var e2 := Events(SendByte(wordAddr));
    var e3 := Events(RepeatedStartRead);
    RunAppend(e1, e2, v0, sa);
    RunAppend(e1 + e2, e3, v0, sa);
    RunStartWrite(tr0, sa);
    RunSendByte(wordAddr, sa);
    RunRepeatedStartRead(sa);
    assert [Start(sa, Write)] + [DataOut(wordAddr)] + [RepeatedStart(sa, Read)]
        == [Start(sa, Write), DataOut(wordAddr), RepeatedStart(sa, Read)];
  }

  /** Every intermediate byte is acknowledged and leaves the bus receiving. */
  lemma {:induction false} RunRxNexts(d: seq<byte>, sa: int)
    ensures Run(Flatten(RxNexts(d)), Receiving, sa) == Effect(Acked(d), Receiving)
    decreases |d|
  {
    if d != [] {
      var block := Events(RxNext(d[0]));
      assert RxNexts(d)[0] == RxNext(d[0]);
      assert RxNexts(d)[1..] == RxNexts(d[1..]);
      assert Flatten(RxNexts(d)) == block + Flatten(RxNexts(d[1..]));
      RunAppend(block, Flatten(RxNexts(d[1..])), Receiving, sa);
      RunRxNext(d[0], sa);
      RunRxNexts(d[1..], sa);
      assert Acked(d) == [DataIn(d[0], true)] + Acked(d[1..]);
    } else {
      assert RxNexts(d) == [];
    }
  }

  /** A random read of the bytes `d` at `wordAddr` from the device at `sa`,
      in the I2C combined format: write the word address, repeated START,
      read, NACK the last byte, STOP. */
  function RandomRead(sa: int, wordAddr: byte, d: seq<byte>): seq<Condition>
    requires |d| >= 1
  {
    [Start(sa, Write), DataOut(wordAddr), RepeatedStart(sa, Read)]
    + Acked(d[..|d| - 1]) + [DataIn(d[|d| - 1], false), Stop]
  }

  /** eeprom_read_n, seen on the bus: from an idle bus the phases of
      `ReadPhases` put exactly the random-read frame on the wire and leave
      the bus released, whatever UCTR was before. */
  lemma ReadOnTheWire(wordAddr: byte, d: seq<byte>, tr0: bool, sa: int)
    requires |d| >= 1
    ensures Run(Flatten(ReadPhases(wordAddr, d)), Bus(tr0, false, false, false), sa)
         == Effect(RandomRead(sa, wordAddr, d), Bus(false, false, false, false))
  {
    var head := Addressing(wordAddr);
    var mid := RxNexts(d[..|d| - 1]);
    var tail := [RxLastWithStop(d[|d| - 1]), AwaitStop];
    FlattenAppend(head, mid);
    FlattenAppend(head + mid, tail);
    var v0 := Bus(tr0, false, false, false);
    RunAppend(Flatten(head), Flatten(mid), v0, sa);
    RunAppend(Flatten(head) + Flatten(mid), Flatten(tail), v0, sa);
    RunAddressing(wordAddr, tr0, sa);
    RunRxNexts(d[..|d| - 1], sa);
    RunFinish(d[|d| - 1], sa);
  }

  predicate IsStart(c: Condition)
  {
    c.Start? || c.RepeatedStart?
  }

  /** The bus rules a read frame must keep:
      - START opens it, STOP closes it, and neither occurs in between, so the
        bus stays busy throughout (UM10204 section 3.1.4);
      - a byte is sent only in a write and received only in a read, right
        after the addressing START or another byte of the same transfer;
      - the master acknowledges every byte it receives except the last one
        before STOP, which it NACKs (UM10204 section 3.1.6);
      - every START of the frame addresses the same target, so the repeated
        START continues the combined transfer (UM10204 section 3.1.10). */
  predicate Conformant(cs: seq<Condition>)
  {
    && |cs| >= 2
    && cs[0].Start?
    && cs[|cs| - 1].Stop?
    && (forall i :: 0 < i < |cs| - 1 ==> !cs[i].Start? && !cs[i].Stop?)
    && (forall i :: 0 <= i < |cs| && cs[i].DataOut? ==>
          0 < i && (cs[i - 1].DataOut? || (IsStart(cs[i - 1]) && cs[i - 1].dir == Write)))
    && (forall i :: 0 <= i < |cs| && cs[i].DataIn? ==>
          0 < i && (cs[i - 1].DataIn? || (IsStart(cs[i - 1]) && cs[i - 1].dir == Read)))
    && (forall i :: 0 <= i < |cs| - 1 && cs[i].DataIn? ==> (cs[i].acked <==> !cs[i + 1].Stop?))
    && (forall i :: 0 <= i < |cs| && IsStart(cs[i]) ==> cs[i].address == cs[0].address)
  }

  /** The frame eeprom_read_n puts on the bus keeps the rules above, and it
      ends in a received byte: the master, not the target, ends the read. */
  lemma RandomReadConformant(sa: int, wordAddr: byte, d: seq<byte>)
    requires |d| >= 1
    ensures Conformant(RandomRead(sa, wordAddr, d))
    ensures RandomRead(sa, wordAddr, d)[|d| + 2] == DataIn(d[|d| - 1], false)
  {
  }
}
